=== FILE: README.md ===
# Tile production core: feature classifier, backpressure relay and task worker

This project models the core of a tool that renders a planet-scale OpenStreetMap
extract into one vector-tile package per tile of a grid. It has two parts.

The first part is the per-feature classifier of `modify.js`. It normalises a
feature's names and then runs a first-match chain of nine classifiers: place,
water, building, road, railway, nature, boundary, route and structure. The
result is either the feature annotated with `tippecanoe = {minzoom, maxzoom,
layer}`, or `null`, which drops the feature.

The second part is the decision logic of `index.js`:
- the relay inside `produce` that forwards classified records from the
  exporter to the tile builder, and itself pauses the exporter when the
  builder's stdin is full and resumes it on drain;
- the skip-if-exists branches of `extract` and `produce`;
- the queue worker;
- the `queueEmpty` cleanup flag;
- the grid loop of `main`.

Modules, one per component:

- `Features` (features.dfy): feature, geometry, layer and directive types, plus
  JavaScript property access. A property is truthy when it is present and not
  `""`. `includes` on an absent key is false. A missing lookup-table entry is
  `undefined`, written 0 here.
- `Zoom` (zoom.dfy): `flap`, the polygon-area zoom.
- `Names` (names.dfy): the name step.
- `Classifiers` (classifiers.dfy): the nine classifiers and their tables, typos included.
- `Engine` (engine.dfy): the exported function and its priority chain.
- `Relay` (relay.dfy): the backpressure relay as an event-driven state machine.
- `Grid` (grid.dfy): the tile grid enumeration.
- `Pipeline` (pipeline.dfy): `extract`, `produce`, the queue worker and `main`.
- `Cleanup` (cleanup.dfy): the `queueEmpty` flag and mini-planet deletion.

The model follows the code as written, quirks included:
- The settlement switch tests `'villege'`, so a village keeps minzoom 14.
- The tables keep `'cemetry'`, `'studium'` and the key `sports`.
- `place` rejects every non-Point feature before trying any of its lists.
- `/name:/` is a substring test, so keys such as `alt_name:en` are deleted too.
- Some classifiers assign `f.tippecanoe` and then return `null`, and the chain
  moves on. Every accepting path assigns a fresh annotation, so that
  assignment is never observed. A classifier is therefore modelled as
  returning an optional directive.
- When the name step finds no truthy preferred name and `name` is absent, the
  source assigns `undefined`. No classifier can tell that apart from an
  absent key, and serialisation drops it, so the model leaves the key out.
- In the queue worker, `endTime` (index.js:170) and `error` (index.js:178) are
  undeclared. The no-feature branch, and the catch block, therefore throw a
  ReferenceError out of the async worker before `cb(null)` is reached. The
  worker records this as a `Fault`, and the callback is not called.
- The close handlers ignore exit codes (index.js:69-73, 142-157). A failed
  subprocess never rejects the stage. A stage rejects only when its promise
  executor throws.
- After the queue reports `empty`, every `task_finish` calls
  `deleteMiniPlanet`, unless `skipMiniPlanet` is set. Every unlink after the first finds no file, and its
  callback rethrows the error.

## Model

| member | source | states |
|---|---|---|
| Zoom.Flap | modify.js:62-72 | polygons get the raw area zoom clamped to [6,15] (`AreaZoom`); other geometries get the default when it is truthy, else 10 |
| Names.ContainsInfixIff | modify.js:43-47 | the recursive `/name:/` test holds exactly when the pattern occurs at some position of the key |
| Names.FirstTruthy | modify.js:25-40 | reference definition of the preference rule: the result is the value of the first truthy key of the list, and no earlier key is truthy |
| Names.ChosenNameIsPreferred | modify.js:25-40 | the if/else chain picks the first truthy of name:en, name:fr, name:es, name:pt, name:ar, int_name, or else the old `name` |
| Names.HasNameKeyIff | modify.js:16-24 | the name step is triggered exactly when one of the seven keys is present, even with an empty value |
| Names.NormalizeNames | modify.js:16-49 | with no name key the properties are unchanged; otherwise `name` holds the preferred name, no `int_name` or key containing `name:` remains, and every other key keeps its value |
| Names.FrenchNameExample | modify.js:16-49 | name:fr "Paris" with name "Paris (fr)" becomes just name "Paris" |
| Names.NoColonNoVariant | modify.js:43-47 | a key without a colon, other than int_name and name, is never deleted by the name step |
| Classifiers.ClassifyNature | modify.js:75-95 | accepts exactly the listed landuse or natural values; polygons get their clamped area zoom, every other geometry 15 |
| Classifiers.ClassifyWater | modify.js:98-161 | accepts exactly: a listed natural value unless it is a water/wetland line; otherwise a listed waterway that is not an administrative boundary; otherwise landuse=reservoir. Polygons get their clamped area zoom; other natural features get the natural table (water/wetland points 15); other waterways the waterway table; reservoirs 15 as points and 6 otherwise |
| Classifiers.BoundaryZoom | modify.js:165-183 | the admin-level zoom table always gives a value in [6,13] |
| Classifiers.ClassifyBoundary | modify.js:164-201 | national parks are rejected; administrative boundaries are accepted exactly when neither polygonal nor maritime; admin_level 2 gives 6, 3-4 give 10, 5-8 give 11, anything else gives 13 |
| Classifiers.RoadZoom | modify.js:205-240 | the switch agrees with the highway zoom table for every listed value and gives 15 for any other value |
| Classifiers.ClassifyRoad | modify.js:241-256 | accepts exactly the listed highway values, on the road layer, at the highway table's zoom for the feature's highway value |
| Classifiers.BusStopDefaultZoom | modify.js:237-242 | bus_stop is accepted but has no case in the switch, so it falls to the default 15 |
| Classifiers.ClassifyRailway | modify.js:259-278 | accepts exactly the listed railway values; a truthy service gives 15 and wins over the Point override of 14; without service, polygons get their clamped area zoom and every other non-point geometry 10 |
| Classifiers.ClassifyRoute | modify.js:281-293 | only route=ferry is accepted, always at minzoom 11 |
| Classifiers.ClassifyStructure | modify.js:296-323 | accepts exactly the listed aeroway, man_made, power and public_transport values or a truthy barrier; a barrier forces 15; otherwise polygons get their clamped area zoom and every other geometry 14 |
| Classifiers.ClassifyBuilding | modify.js:326-336 | accepts exactly the features with a truthy building; polygons get their clamped area zoom, every other geometry 15 |
| Classifiers.SettlementZoom | modify.js:345-366 | a settlement's zoom is in [6,14] |
| Classifiers.ClassifyPlace | modify.js:339-485 | accepts exactly the points whose place, leisure, sports, amenity, historic, military, office, craft, tourism or shop value is listed; settlements get 8 for city, 10 for town and 14 otherwise; capital=yes forces 6, or 11 for Vatican City |
| Classifiers.FirstListZoom | modify.js:369-484 | reference rule for the lists after the settlements: the zoom of the first list that matches, none when no list matches |
| Classifiers.FirstListZoomPicks | modify.js:369-484 | if list k matches and no earlier list does, the reference rule gives list k's zoom |
| Classifiers.PlaceFollowsLists | modify.js:369-484 | a non-settlement point is dropped exactly when no list matches, and otherwise gets the zoom of the first matching list: 14 for leisure, sports, civic amenity, military and office, 15 for local amenity, historic, craft, tourism and shop |
| Engine.RunRule | modify.js:51-59 | whatever a classifier accepts lands on that classifier's own layer with minzoom in [6,15] and maxzoom 15 |
| Engine.FirstAccepting | modify.js:51-59 | reference first-match chain: none when every rule declines, otherwise the output of a rule all of whose predecessors declined |
| Engine.ChainIsFirstAccepting | modify.js:51-59 | the or-chain equals the first-match chain over place, water, building, road, railway, nature, boundary, route, structure, for any rules |
| Engine.Classify | modify.js:3-60 | an accepted feature is the name-normalised input with a directive whose minzoom is in [6,15] and whose maxzoom is 15 |
| Engine.ClassifyDropsIff | modify.js:51-59 | the result is null exactly when all nine classifiers decline the name-normalised feature |
| Engine.NormalizedKeeps | modify.js:41-48 | classifiers see every key that is not a name variant unchanged |
| Engine.PlaceBeatsBuilding | modify.js:51-53 | a non-capital city point that also has a building is classified as place, at minzoom 8 |
| Engine.VillageKeepsFourteen | modify.js:350-360 | a non-capital village point gets minzoom 14, because the switch tests 'villege' |
| Engine.FirstAcceptingPicksFirst | modify.js:51-59 | for any rules, if rule k accepts and every earlier rule declines, the first-match chain returns rule k's output |
| Engine.ClassifyIsFirstRule | modify.js:51-59 | if classifier k of the order place, water, building, road, railway, nature, boundary, route, structure accepts and every earlier one declines, the result is the name-normalised feature annotated by classifier k |
| Relay.Modify | index.js:110-116 | a record on which modify throws counts as a reject; accepted records carry valid directives |
| Relay.Step | index.js:109-133 | each handler keeps "one drain listener exactly while pausing", so at most one is outstanding; a rejected record changes nothing; upstream is paused once per accepted record whose write was refused, and resumed once per drain that finds a listener |
| Relay.Run | index.js:107-133 | the builder's stdin receives the accepted records in arrival order, and is ended exactly when a finish event occurs |
| Relay.AcceptedIsFilter | index.js:109-118 | a record reaches the builder exactly when some data event carried a record that modify accepted |
| Relay.FullWriteWhilePausing | index.js:118-127 | a full-buffer write while pausing pauses upstream again but registers no new listener |
| Relay.DrainThenFullWrite | index.js:120-126 | drain resumes upstream and clears pausing, so the next full-buffer write registers exactly one listener |
| Relay.TwoFullWritesOneDrain | index.js:118-127 | two full-buffer writes then one drain: one listener, two pauses, one resume, upstream flowing |
| Relay.PausedOnlyWhilePausingPreserved | index.js:119-126 | the relay's own pause and resume calls leave upstream paused only while a drain listener is waiting to resume it |
| Grid.EnumerateGrid | index.js:233-237 | the pushed tiles are exactly those of the rectangle, in strictly increasing x-major order, (maxx-minx+1)(maxy-miny+1) of them |
| Grid.OrderedMeansDistinct | index.js:233-237 | no tile is pushed twice |
| Pipeline.Extract | index.js:37-76 | spawns nothing and resolves when skipExistingPbf is set and the destination exists; rejects only if its executor throws; otherwise it resolves, and renames, exactly when the extractor closes, whatever the exit code, and stays pending if it never does |
| Pipeline.Produce | index.js:78-159 | the same skip rule with skipExistingMbtiles; when spawned, the builder gets exactly the records the relay accepts; the promise resolves, and the output is renamed, exactly when the export stream finished and the builder then closed; otherwise it stays pending |
| Pipeline.AcceptedAreValid | index.js:109-118 | every record forwarded to the builder has a directive in [6,15] with maxzoom 15 |
| Pipeline.Worker | index.js:161-182 | an nfm tile invokes no stage and faults on the undeclared endTime; otherwise extract runs exactly when skipMiniPlanet is false, and produce runs exactly when extract was skipped or resolved, after it; a rejected stage faults on the undeclared error; the callback is reached exactly when produce resolved; a pending extract or produce leaves the task with neither callback nor fault; the builder receives what produce delivered |
| Pipeline.ExitCodesIgnored | index.js:142-157 | the worker's behaviour does not depend on either subprocess's exit code (the handlers at lines 69-73 and 142-157 ignore it) |
| Pipeline.RerunSpawnsNothing | index.js:86-97 | with both skip flags set and both outputs present, a task spawns no subprocess; outside the nfm list it also reaches its callback |
| Pipeline.RunDriver | index.js:231-238 | a failed mini-planet extract deletes it, rejects and pushes nothing; otherwise every grid tile is pushed once, in x-major order |
| Cleanup.DeleteMiniPlanet | index.js:224-229 | each call counts one unlink; it fails exactly when the file is already gone |
| Cleanup.Step | index.js:190-198 | once `empty` has fired, queueEmpty stays true |
| Cleanup.Run | index.js:188-198 | queueEmpty holds exactly once an empty event was seen; unlink calls equal the task completions after the first empty, or zero when the mini planet is skipped |
| Cleanup.RunKeepsInv | index.js:224-229 | only the first unlink finds the file: after it, errors are one fewer than calls |
| Cleanup.DeleteFiresTwice | index.js:194-198 | empty followed by two completions deletes twice, and the second unlink fails |
| Cleanup.SkippedNeverDeletes | index.js:196 | with skipMiniPlanet set, nothing is ever deleted |

## Left out

- Relay.Step: the pipe at index.js:140 also pauses the exporter when the parser's buffer is full and resumes it when the parser drains, independently of the relay's `pausing` flag. That flow control is not modelled, and `upstreamPaused` tracks only the relay's own `pause` and `resume` calls. Because the pipe can resume the exporter while the relay still waits for the builder's drain, the source's relay does not by itself hold the exporter until the builder drains.
- Area and `log2` (`@mapbox/geojson-area`, `Math.log2`) are floating point. Each feature carries an integer `rawPolyZoom` in their place, and only the clamping is modelled. An area of 0 gives +Infinity in the source, which clamps to 15. The model covers this through any large raw value. A negative area (a polygon whose holes outweigh its shell) makes `log2` NaN, so `flap` returns NaN and the minzoom serialises as null; an integer `rawPolyZoom` cannot express this, so the model excludes it.
- `tilebelt.tileToBBOX` and the bounding-box arithmetic of `createMiniPlanet` are floating point and come from a foreign library.
- Subprocess spawning (`osmium`, `tippecanoe`), pipes, `fs` calls and `tempy` temporary files are I/O. They become oracles: a destination-exists flag, an executor-throws flag, a closes flag and an exit code per stage, plus the exit code of the mini-planet extract.
- Properties are modelled as strings. Non-string JSON values (numbers, booleans) are not modelled.
- The JSON text-sequence parser and `JSON.stringify` are left out. The relay receives parsed records, and a record on which `modify` throws is a distinct value. The parser's handling of malformed bytes is outside the model.
- The write return value of `stdin.write` is a field of the data event, not a separate event.
- Exceptions thrown inside event callbacks are left out. A `renameSync` in a close handler is assumed to succeed: a missing temporary output is not modelled. The rethrow in the unlink callback is counted (`unlinkErrors`), but the crash it causes is not modelled.
- Pipeline.RunDriver: the mini-planet extract is assumed to exit. An `osmium` that hangs leaves `main` pending at index.js:213 and pushes no task; the driver has no pending outcome.
- The tile builder closes only after its stdin has been ended, when its closes flag says so. A builder that exits early on its own, before the export stream finishes, is not modelled.
- Traces of the relay are not required to stop at `Finish`. A data event after `Finish` would be a write after `stdin.end()`, which the source does not guard. The parser emits no data after its finish, so such traces do not arise.
- `better-queue` concurrency and scheduling are left out. Handlers run one event at a time. The race between `empty` and in-flight tasks that still read the mini planet is therefore not modelled.
- The nfm list (nfm/index.js) is a JSON file load plus a string membership test. It is passed as a set of tiles; comparing the tiles' `toString()` forms is the same as comparing the integer triples.
- `winston` logging, `hh-mm-ss` time formatting and `config` loading are left out. Configuration values are parameters.

=== FILE: classifiers.dfy ===
/**
 * The nine category classifiers of modify.js. Each one looks at a
 * (name-normalised) feature and either accepts it with a directive or
 * declines with `None`, letting the next classifier of the chain try.
 * Some source classifiers assign `f.tippecanoe` before declining; every
 * accepting path assigns a fresh annotation, so that assignment is never
 * observed and declining is modelled as `None` alone.
 */
module Classifiers {
  import opened Wrappers
  import opened Features
  import opened Zoom

  // ---- nature (modify.js lines 75-95) ----

  /** Land uses of the nature layer, typos included ('cemetry'). */
  const NatureLanduse: seq<string> := [
    "cemetry", "landfill", "meadow", "allotments", "recreation_ground",
    "orchard", "vineyard", "quarry", "forest", "farm", "farmyard",
    "farmland", "grass", "residential", "retail", "commercial",
    "military", "industrial", "basin"]

  const NatureNatural: seq<string> := ["tree", "wood", "scrub", "heath"]

  function ClassifyNature(f: Feature): (r: Option<Directive>)
    ensures r.Some? <==> OneOf(f.properties, "landuse", NatureLanduse) || OneOf(f.properties, "natural", NatureNatural)
    ensures r.Some? ==> r.value.layer == Nature && ValidDirective(r.value)
    ensures r.Some? && !IsPolygonal(f.geometry) ==> r.value.minzoom == 15
    ensures r.Some? && IsPolygonal(f.geometry) ==> r.value.minzoom == AreaZoom(f.rawPolyZoom)
  {
    if OneOf(f.properties, "landuse", NatureLanduse) || OneOf(f.properties, "natural", NatureNatural) then
      Some(Directive(FlapOf(f, 15), 15, Nature))
    else None
  }

  // ---- water (modify.js lines 98-161) ----

  const WaterNatural: seq<string> := ["water", "wetland", "coastline", "glacier"]
  const WaterNaturalZoom: map<string, int> := map["water" := 6, "wetland" := 8, "coastline" := 6, "glacier" := 6]
  const Waterways: seq<string> := ["river", "stream", "canal", "drain", "riverbank", "ditch"]
  const WaterwayZoom: map<string, int> :=
    map["river" := 10, "stream" := 14, "canal" := 13, "drain" := 14, "riverbank" := 6, "ditch" := 15]

  /** The three branches of `water`, each taken only when the earlier ones are not. */
  predicate NaturalWaterBranch(p: Properties) {
    OneOf(p, "natural", WaterNatural)
  }

  predicate WaterwayBranch(p: Properties) {
    !NaturalWaterBranch(p) && OneOf(p, "waterway", Waterways) && !Equals(p, "boundary", "administrative")
  }

  predicate ReservoirBranch(p: Properties) {
    !NaturalWaterBranch(p) && !WaterwayBranch(p) && OneOf(p, "landuse", ["reservoir"])
  }

  function ClassifyWater(f: Feature): (r: Option<Directive>)
    ensures r.Some? ==> r.value.layer == Water && ValidDirective(r.value)
    ensures r.Some? <==> (NaturalWaterBranch(f.properties)
                          && !(IsLinear(f.geometry) && f.properties["natural"] in ["water", "wetland"]))
                         || WaterwayBranch(f.properties) || ReservoirBranch(f.properties)
    ensures r.Some? && IsPolygonal(f.geometry) ==> r.value.minzoom == AreaZoom(f.rawPolyZoom)
    ensures r.Some? && NaturalWaterBranch(f.properties) && !IsPolygonal(f.geometry)
            && !(f.geometry == Point && f.properties["natural"] in ["water", "wetland"]) ==>
              r.value.minzoom == WaterNaturalZoom[f.properties["natural"]]
    ensures r.Some? && WaterwayBranch(f.properties) && !IsPolygonal(f.geometry) ==>
              r.value.minzoom == WaterwayZoom[f.properties["waterway"]]
    ensures ReservoirBranch(f.properties) && f.geometry != Point && !IsPolygonal(f.geometry) ==>
              r == Some(Directive(6, 15, Water))
    ensures OneOf(f.properties, "natural", ["water", "wetland"]) && IsLinear(f.geometry) ==> r.None?
    ensures OneOf(f.properties, "natural", ["water", "wetland"]) && f.geometry == Point ==> r == Some(Directive(15, 15, Water))
    ensures (!OneOf(f.properties, "natural", WaterNatural) && Equals(f.properties, "boundary", "administrative")
             && !OneOf(f.properties, "landuse", ["reservoir"])) ==> r.None?
    ensures ReservoirBranch(f.properties) && f.geometry == Point ==> r == Some(Directive(15, 15, Water))
  {
    var p := f.properties;
    if OneOf(p, "natural", WaterNatural) then
      var d := Directive(FlapOf(f, Lookup(WaterNaturalZoom, p["natural"])), 15, Water);
      match f.geometry
      case LineString | MultiLineString =>
        if p["natural"] in ["water", "wetland"] then None else Some(d)
      case Point =>
        if p["natural"] in ["water", "wetland"] then Some(d.(minzoom := 15)) else Some(d)
      case _ => Some(d)
    else if OneOf(p, "waterway", Waterways) && !Equals(p, "boundary", "administrative") then
      Some(Directive(FlapOf(f, Lookup(WaterwayZoom, p["waterway"])), 15, Water))
    else if OneOf(p, "landuse", ["reservoir"]) then
      var d := Directive(FlapOf(f, 6), 15, Water);
      if f.geometry == Point then Some(d.(minzoom := 15)) else Some(d)
    else None
  }

  // ---- boundary (modify.js lines 164-201) ----

  /** `minzoomBoundary`: the national-park case is kept although the caller declines it first. */
  function BoundaryZoom(p: Properties): (z: int)
    ensures 6 <= z <= 13
  {
    if Equals(p, "boundary", "national_park") then 9
    else if Equals(p, "admin_level", "2") then 6
    else if OneOf(p, "admin_level", ["3", "4"]) then 10
    else if OneOf(p, "admin_level", ["5", "6", "7", "8"]) then 11
    else 13
  }

  function ClassifyBoundary(f: Feature): (r: Option<Directive>)
    ensures r.Some? ==> r.value.layer == Boundary && ValidDirective(r.value)
    ensures Equals(f.properties, "boundary", "national_park") ==> r.None?
    ensures r.Some? <==> Equals(f.properties, "boundary", "administrative") && !IsPolygonal(f.geometry)
                         && !Equals(f.properties, "maritime", "yes")
    ensures r.Some? && Equals(f.properties, "admin_level", "2") ==> r.value.minzoom == 6
    ensures r.Some? && OneOf(f.properties, "admin_level", ["3", "4"]) ==> r.value.minzoom == 10
    ensures r.Some? && OneOf(f.properties, "admin_level", ["5", "6", "7", "8"]) ==> r.value.minzoom == 11
    ensures r.Some? && !OneOf(f.properties, "admin_level", ["2", "3", "4", "5", "6", "7", "8"]) ==> r.value.minzoom == 13
  {
    var p := f.properties;
    if OneOf(p, "boundary", ["administrative", "national_park"]) then
      if Equals(p, "boundary", "national_park") then None
      else
        var d := Directive(BoundaryZoom(p), 15, Boundary);
        if Equals(p, "boundary", "administrative") && (f.geometry in [MultiPolygon, Polygon] || Equals(p, "maritime", "yes"))
        then None
        else Some(d)
    else None
  }

  // ---- road (modify.js lines 204-256) ----

  const Highways: seq<string> := [
    "bus_stop",
    "motorway", "trunk", "primary", "secondary", "motorway_link", "trunk_link",
    "primary_link", "secondary_link", "tertiary", "road", "tertiary_link",
    "track", "bridleway", "cycleway", "steps", "living_street", "unclassified",
    "service", "residential", "pedestrian", "footway", "path"]

  /** The highway zoom table as data: the values the switch of `minzoomRoad` lists. */
  const RoadZoomTable: map<string, int> := map[
    "path" := 15, "pedestrian" := 15, "footway" := 15, "cycleway" := 15,
    "living_street" := 15, "steps" := 15, "bridleway" := 15, "service" := 15,
    "residential" := 14, "track" := 14, "unclassified" := 14,
    "road" := 13, "tertiary_link" := 13,
    "tertiary" := 12, "secondary_link" := 12,
    "secondary" := 11, "primary_link" := 11,
    "primary" := 10, "trunk_link" := 10,
    "trunk" := 9, "motorway_link" := 9,
    "motorway" := 6]

  /** `minzoomRoad`; anything the switch does not list (such as bus_stop) gets 15. */
  function RoadZoom(highway: string): (z: int)
    ensures 6 <= z <= 15
    ensures highway in RoadZoomTable ==> z == RoadZoomTable[highway]
    ensures highway !in RoadZoomTable ==> z == 15
  {
    match highway
    case "path" | "pedestrian" | "footway" | "cycleway" | "living_street" | "steps" | "bridleway" | "service" => 15
    case "residential" | "track" | "unclassified" => 14
    case "road" | "tertiary_link" => 13
    case "tertiary" | "secondary_link" => 12
    case "secondary" | "primary_link" => 11
    case "primary" | "trunk_link" => 10
    case "trunk" | "motorway_link" => 9
    case "motorway" => 6
    case _ => 15
  }

  function ClassifyRoad(f: Feature): (r: Option<Directive>)
    ensures r.Some? <==> OneOf(f.properties, "highway", Highways)
    ensures r.Some? ==> r.value.layer == Road && ValidDirective(r.value)
    ensures r.Some? ==> r.value.minzoom == RoadZoom(f.properties["highway"])
  {
    if OneOf(f.properties, "highway", Highways) then
      Some(Directive(RoadZoom(f.properties["highway"]), 15, Road))
    else None
  }

  /** bus_stop is accepted but has no case of its own in the switch, so it takes the default 15. */
  lemma BusStopDefaultZoom(f: Feature)
    requires Equals(f.properties, "highway", "bus_stop")
    ensures ClassifyRoad(f) == Some(Directive(15, 15, Road))
  {
    assert Highways[0] == "bus_stop";
    assert RoadZoom("bus_stop") == 15;
  }

  // ---- railway (modify.js lines 259-278) ----

  const Railways: seq<string> := [
    "station", "halt", "tram_stop", "rail", "light_rail", "narrow_gauge",
    "subway", "tram", "monorail"]

  function ClassifyRailway(f: Feature): (r: Option<Directive>)
    ensures r.Some? <==> OneOf(f.properties, "railway", Railways)
    ensures r.Some? ==> r.value.layer == Railway && ValidDirective(r.value)
    ensures r.Some? && Truthy(f.properties, "service") ==> r.value.minzoom == 15
    ensures r.Some? && !Truthy(f.properties, "service") && f.geometry == Point ==> r.value.minzoom == 14
    ensures r.Some? && !Truthy(f.properties, "service") && IsPolygonal(f.geometry) ==> r.value.minzoom == AreaZoom(f.rawPolyZoom)
    ensures r.Some? && !Truthy(f.properties, "service") && f.geometry != Point && !IsPolygonal(f.geometry) ==> r.value.minzoom == 10
  {
    if OneOf(f.properties, "railway", Railways) then
      var z := if Truthy(f.properties, "service") then 15
               else if f.geometry == Point then 14
               else FlapOf(f, 10);
      Some(Directive(z, 15, Railway))
    else None
  }

  // ---- route (modify.js lines 281-293) ----

  function ClassifyRoute(f: Feature): (r: Option<Directive>)
    ensures r.Some? <==> Equals(f.properties, "route", "ferry")
    ensures r.Some? ==> r.value == Directive(11, 15, Route)
  {
    if OneOf(f.properties, "route", ["ferry"]) then Some(Directive(11, 15, Route)) else None
  }

  // ---- structure (modify.js lines 296-323) ----

  const Aeroways: seq<string> := ["aerodrome", "airfield", "helipad", "aeroway", "runway", "taxiway"]
  const ManMade: seq<string> := [
    "tower", "water_tower", "communications_tower", "windmill",
    "lighthouse", "wastewater_plant", "watermill", "water_works",
    "water_well", "storage_tank"]
  const Power: seq<string> := ["station", "tower"]

  function ClassifyStructure(f: Feature): (r: Option<Directive>)
    ensures r.Some? <==> OneOf(f.properties, "aeroway", Aeroways) || OneOf(f.properties, "man_made", ManMade)
                         || OneOf(f.properties, "power", Power) || Equals(f.properties, "public_transport", "stop_position")
                         || Truthy(f.properties, "barrier")
    ensures r.Some? ==> r.value.layer == Structure && ValidDirective(r.value)
    ensures Truthy(f.properties, "barrier") ==> r == Some(Directive(15, 15, Structure))
    ensures r.Some? && !Truthy(f.properties, "barrier") && IsPolygonal(f.geometry) ==> r.value.minzoom == AreaZoom(f.rawPolyZoom)
    ensures r.Some? && !Truthy(f.properties, "barrier") && !IsPolygonal(f.geometry) ==> r.value.minzoom == 14
  {
    var p := f.properties;
    if OneOf(p, "aeroway", Aeroways) || OneOf(p, "man_made", ManMade) || OneOf(p, "power", Power)
       || OneOf(p, "public_transport", ["stop_position"]) || Truthy(p, "barrier")
    then
      var d := Directive(FlapOf(f, 14), 15, Structure);
      if Truthy(p, "barrier") then Some(d.(minzoom := 15)) else Some(d)
    else None
  }

  // ---- building (modify.js lines 326-336) ----

  function ClassifyBuilding(f: Feature): (r: Option<Directive>)
    ensures r.Some? <==> Truthy(f.properties, "building")
    ensures r.Some? ==> r.value.layer == Building && ValidDirective(r.value)
    ensures r.Some? && !IsPolygonal(f.geometry) ==> r.value.minzoom == 15
    ensures r.Some? && IsPolygonal(f.geometry) ==> r.value.minzoom == AreaZoom(f.rawPolyZoom)
  {
    if Truthy(f.properties, "building") then Some(Directive(FlapOf(f, 15), 15, Building)) else None
  }

  // ---- place (modify.js lines 339-485) ----

  const Settlements: seq<string> := [
    "city", "town", "village", "hamlet", "isolated_dwelling", "locality",
    "suburb", "neighborhood"]
  /** Leisure values, typos included ('studium'). */
  const Leisure: seq<string> := [
    "golf_course", "water_park", "pitch", "studium", "sports_centre",
    "swimming_pool", "park", "playground", "common", "recreation_ground",
    "nature_reserve"]
  /** Values of the key `sports` (sic). */
  const Sports: seq<string> := ["swimming", "tennis"]
  const CivicAmenity: seq<string> := [
    "public_building", "townhall", "embassy", "courthouse", "police",
    "prison", "fire_station", "post_office", "social_facility",
    "customs", "shelter", "school", "college", "university",
    "hospital", "fuel", "airport", "ferry_terminal", "parking"]
  const LocalAmenity: seq<string> := [
    "restaurant", "fast_food", "cafe", "food_court",
    "biergarten", "nightclub", "pub", "bar", "community_centre",
    "cinema", "library", "arts_centre", "money_transfer",
    "bureau_de_change", "theatre", "grave_yard", "swimming_pool",
    "bank", "atm", "marketplace", "car_rental", "pharmacy",
    "waste_disposal", "drinking_water", "bus_station", "parking"]
  const Historic: seq<string> := ["monument", "memorial", "castle", "fort", "archaeological_site", "ruins"]
  const Office: seq<string> := ["government", "ngo"]
  const Tourism: seq<string> := [
    "bed_and_breakfast", "hotel", "motel", "guest_house", "hostel",
    "chalet", "museum", "zoo", "theme_park"]
  const Shop: seq<string> := [
    "car_repair", "supermarket", "kiosk", "department_store", "clothes",
    "books", "butcher", "beverages", "alcohol", "optician", "stationery",
    "mobile_phone", "greengrocer", "car", "furniture", "computer",
    "hairdresser", "bakery", "travel_agency"]

  /**
   * The settlement minzoom. A capital overrides the place switch. The switch
   * tests 'villege' (sic), so a village keeps the initial 14.
   */
  function SettlementZoom(p: Properties): (z: int)
    ensures 6 <= z <= 14
  {
    if Equals(p, "capital", "yes") then (if Equals(p, "name", "Vatican City") then 11 else 6)
    else if Equals(p, "place", "city") then 8
    else if Equals(p, "place", "town") then 10
    else if Equals(p, "place", "villege") then 12
    else 14
  }

  /** One point-of-interest list of `place`: the key it tests, its values, and the zoom it gives a point. */
  datatype PoiList = PoiList(key: string, values: seq<string>, zoom: int)

  /** The lists `place` tries after the settlements, in source order. */
  const PlaceLists: seq<PoiList> := [
    PoiList("leisure", Leisure, 14),
    PoiList("sports", Sports, 14),
    PoiList("amenity", CivicAmenity, 14),
    PoiList("amenity", LocalAmenity, 15),
    PoiList("historic", Historic, 15),
    PoiList("military", ["airfield"], 14),
    PoiList("office", Office, 14),
    PoiList("craft", ["bakery"], 15),
    PoiList("tourism", Tourism, 15),
    PoiList("shop", Shop, 15)]

  predicate ListMatches(p: Properties, l: PoiList) {
    OneOf(p, l.key, l.values)
  }

  /** Reference rule: the zoom of the first list that matches, if any. */
  function FirstListZoom(p: Properties, ls: seq<PoiList>): (r: Option<int>)
    ensures r.None? <==> forall i :: 0 <= i < |ls| ==> !ListMatches(p, ls[i])
    ensures r.Some? ==> exists i :: 0 <= i < |ls| && ListMatches(p, ls[i]) && r.value == ls[i].zoom
                                    && forall j :: 0 <= j < i ==> !ListMatches(p, ls[j])
  {
    if |ls| == 0 then None
    else if ListMatches(p, ls[0]) then Some(ls[0].zoom)
    else
      var r := FirstListZoom(p, ls[1..]);
      assert forall i :: 1 <= i < |ls| ==> ls[i] == ls[1..][i - 1];
      if r.Some? then
        ghost var i :| 0 <= i < |ls[1..]| && ListMatches(p, ls[1..][i]) && r.value == ls[1..][i].zoom
                       && forall j :: 0 <= j < i ==> !ListMatches(p, ls[1..][j]);
        assert ListMatches(p, ls[i + 1]) && r.value == ls[i + 1].zoom;
        r
      else r
  }

  function ClassifyPlace(f: Feature): (r: Option<Directive>)
    ensures f.geometry != Point ==> r.None?
    ensures r.Some? <==> f.geometry == Point
                         && (OneOf(f.properties, "place", Settlements) || OneOf(f.properties, "leisure", Leisure)
                             || OneOf(f.properties, "sports", Sports)
                             || OneOf(f.properties, "amenity", CivicAmenity) || OneOf(f.properties, "amenity", LocalAmenity)
                             || OneOf(f.properties, "historic", Historic) || OneOf(f.properties, "military", ["airfield"])
                             || OneOf(f.properties, "office", Office) || OneOf(f.properties, "craft", ["bakery"])
                             || OneOf(f.properties, "tourism", Tourism) || OneOf(f.properties, "shop", Shop))
    ensures r.Some? ==> r.value.layer == Place && ValidDirective(r.value)
    ensures f.geometry == Point && OneOf(f.properties, "place", Settlements) && !Equals(f.properties, "capital", "yes") ==>
              r.Some? && r.value.minzoom == (if f.properties["place"] == "city" then 8
                                             else if f.properties["place"] == "town" then 10 else 14)
    ensures f.geometry == Point && OneOf(f.properties, "place", Settlements) && Equals(f.properties, "capital", "yes") ==>
              r.Some? && r.value.minzoom == (if Equals(f.properties, "name", "Vatican City") then 11 else 6)
    ensures r.Some? && !OneOf(f.properties, "place", Settlements) ==> r.value.minzoom in {14, 15}
    ensures f.geometry == Point && !OneOf(f.properties, "place", Settlements) && OneOf(f.properties, "leisure", Leisure) ==>
              r == Some(Directive(14, 15, Place))
  {
    var p := f.properties;
    if f.geometry != Point then None
    else if OneOf(p, "place", Settlements) then Some(Directive(SettlementZoom(p), 15, Place))
    else if OneOf(p, "leisure", Leisure) then Some(Directive(FlapOf(f, 14), 15, Place))
    else if OneOf(p, "sports", Sports) then Some(Directive(FlapOf(f, 14), 15, Place))
    else if OneOf(p, "amenity", CivicAmenity) then Some(Directive(FlapOf(f, 14), 15, Place))
    else if OneOf(p, "amenity", LocalAmenity) then Some(Directive(FlapOf(f, 15), 15, Place))
    else if OneOf(p, "historic", Historic) then Some(Directive(FlapOf(f, 15), 15, Place))
    else if OneOf(p, "military", ["airfield"]) then Some(Directive(FlapOf(f, 14), 15, Place))
    else if OneOf(p, "office", Office) then Some(Directive(FlapOf(f, 14), 15, Place))
    else if OneOf(p, "craft", ["bakery"]) then Some(Directive(15, 15, Place))
    else if OneOf(p, "tourism", Tourism) then Some(Directive(FlapOf(f, 15), 15, Place))
    else if OneOf(p, "shop", Shop) then Some(Directive(FlapOf(f, 15), 15, Place))
    else None
  }

  /**
   * A point that is not a settlement is classified by the first matching
   * list of `PlaceLists`, at that list's zoom.
   */
  lemma PlaceFollowsLists(f: Feature)
    requires f.geometry == Point && !OneOf(f.properties, "place", Settlements)
    ensures FirstListZoom(f.properties, PlaceLists).None? ==> ClassifyPlace(f).None?
    ensures FirstListZoom(f.properties, PlaceLists).Some? ==>
              ClassifyPlace(f) == Some(Directive(FirstListZoom(f.properties, PlaceLists).value, 15, Place))
  {
    var p, ls := f.properties, PlaceLists;
    assert ListMatches(p, ls[0]) == OneOf(p, "leisure", Leisure);
    assert ListMatches(p, ls[1]) == OneOf(p, "sports", Sports);
    assert ListMatches(p, ls[2]) == OneOf(p, "amenity", CivicAmenity);
    if OneOf(p, "leisure", Leisure) {
      FirstListZoomPicks(p, ls, 0);
    } else if OneOf(p, "sports", Sports) {
      FirstListZoomPicks(p, ls, 1);
    } else if OneOf(p, "amenity", CivicAmenity) {
      FirstListZoomPicks(p, ls, 2);
    } else {
      PlaceFollowsListsFrom3(f);
    }
  }

  /** `PlaceFollowsLists` for a point that matches none of the first 3 lists. */
  lemma PlaceFollowsListsFrom3(f: Feature)
    requires f.geometry == Point && !OneOf(f.properties, "place", Settlements)
    requires forall j :: 0 <= j < 3 ==> !ListMatches(f.properties, PlaceLists[j])
    ensures FirstListZoom(f.properties, PlaceLists).None? ==> ClassifyPlace(f).None?
    ensures FirstListZoom(f.properties, PlaceLists).Some? ==>
              ClassifyPlace(f) == Some(Directive(FirstListZoom(f.properties, PlaceLists).value, 15, Place))
  {
    var p, ls := f.properties, PlaceLists;
    assert !ListMatches(p, ls[0]) && !ListMatches(p, ls[1]) && !ListMatches(p, ls[2]);
    assert !OneOf(p, "leisure", Leisure) && !OneOf(p, "sports", Sports) && !OneOf(p, "amenity", CivicAmenity);
    assert ListMatches(p, ls[3]) == OneOf(p, "amenity", LocalAmenity);
    assert ListMatches(p, ls[4]) == OneOf(p, "historic", Historic);
    assert ListMatches(p, ls[5]) == OneOf(p, "military", ["airfield"]);
    if OneOf(p, "amenity", LocalAmenity) {
      FirstListZoomPicks(p, ls, 3);
    } else if OneOf(p, "historic", Historic) {
      FirstListZoomPicks(p, ls, 4);
    } else if OneOf(p, "military", ["airfield"]) {
      FirstListZoomPicks(p, ls, 5);
    } else {
      PlaceFollowsListsFrom6(f);
    }
  }

  /** `PlaceFollowsLists` for a point that matches none of the first 6 lists. */
  lemma PlaceFollowsListsFrom6(f: Feature)
    requires f.geometry == Point && !OneOf(f.properties, "place", Settlements)
    requires forall j :: 0 <= j < 6 ==> !ListMatches(f.properties, PlaceLists[j])
    ensures FirstListZoom(f.properties, PlaceLists).None? ==> ClassifyPlace(f).None?
    ensures FirstListZoom(f.properties, PlaceLists).Some? ==>
              ClassifyPlace(f) == Some(Directive(FirstListZoom(f.properties, PlaceLists).value, 15, Place))
  {
    var p, ls := f.properties, PlaceLists;
    assert !ListMatches(p, ls[0]) && !ListMatches(p, ls[1]) && !ListMatches(p, ls[2]) && !ListMatches(p, ls[3]) && !ListMatches(p, ls[4]) && !ListMatches(p, ls[5]);
    assert !OneOf(p, "leisure", Leisure) && !OneOf(p, "sports", Sports) && !OneOf(p, "amenity", CivicAmenity) && !OneOf(p, "amenity", LocalAmenity) && !OneOf(p, "historic", Historic) && !OneOf(p, "military", ["airfield"]);
    assert ListMatches(p, ls[6]) == OneOf(p, "office", Office);
    assert ListMatches(p, ls[7]) == OneOf(p, "craft", ["bakery"]);
    if OneOf(p, "office", Office) {
      FirstListZoomPicks(p, ls, 6);
    } else if OneOf(p, "craft", ["bakery"]) {
      FirstListZoomPicks(p, ls, 7);
    } else {
      PlaceFollowsListsFrom8(f);
    }
  }

  /** `PlaceFollowsLists` for a point that matches none of the first 8 lists. */
  lemma PlaceFollowsListsFrom8(f: Feature)
    requires f.geometry == Point && !OneOf(f.properties, "place", Settlements)
    requires forall j :: 0 <= j < 8 ==> !ListMatches(f.properties, PlaceLists[j])
    ensures FirstListZoom(f.properties, PlaceLists).None? ==> ClassifyPlace(f).None?
    ensures FirstListZoom(f.properties, PlaceLists).Some? ==>
              ClassifyPlace(f) == Some(Directive(FirstListZoom(f.properties, PlaceLists).value, 15, Place))
  {
    var p, ls := f.properties, PlaceLists;
    assert !ListMatches(p, ls[0]) && !ListMatches(p, ls[1]) && !ListMatches(p, ls[2]) && !ListMatches(p, ls[3]) && !ListMatches(p, ls[4]) && !ListMatches(p, ls[5]) && !ListMatches(p, ls[6]) && !ListMatches(p, ls[7]);
    assert !OneOf(p, "leisure", Leisure) && !OneOf(p, "sports", Sports) && !OneOf(p, "amenity", CivicAmenity) && !OneOf(p, "amenity", LocalAmenity) && !OneOf(p, "historic", Historic) && !OneOf(p, "military", ["airfield"]) && !OneOf(p, "office", Office) && !OneOf(p, "craft", ["bakery"]);
    assert ListMatches(p, ls[8]) == OneOf(p, "tourism", Tourism);
    assert ListMatches(p, ls[9]) == OneOf(p, "shop", Shop);
    if OneOf(p, "tourism", Tourism) {
      FirstListZoomPicks(p, ls, 8);
    } else if OneOf(p, "shop", Shop) {
      FirstListZoomPicks(p, ls, 9);
    } else {
      assert FirstListZoom(p, ls).None?;
    }
  }

  /** If list k matches and no earlier list does, the reference rule gives list k's zoom. */
  lemma FirstListZoomPicks(p: Properties, ls: seq<PoiList>, k: int)
    requires 0 <= k < |ls| && ListMatches(p, ls[k])
    requires forall j :: 0 <= j < k ==> !ListMatches(p, ls[j])
    ensures FirstListZoom(p, ls) == Some(ls[k].zoom)
  {
    var r := FirstListZoom(p, ls);
    assert r.Some?;
    var i :| 0 <= i < |ls| && ListMatches(p, ls[i]) && r.value == ls[i].zoom
             && forall j :: 0 <= j < i ==> !ListMatches(p, ls[j]);
    assert i == k;
  }
}

=== FILE: cleanup.dfy ===
/**
 * The `queueEmpty` flag and the mini-planet cleanup (index.js lines 188-198,
 * 224-229): once the queue reports `empty`, every later `task_finish` asks
 * to unlink the mini planet, so the unlink can be issued several times and
 * every unlink after the first fails (its callback rethrows the error).
 */
module Cleanup {

  /** The two queue signals the cleanup listens to. */
  datatype QueueEvent = Empty | TaskFinish

  /**
   * `queueEmpty` is the source's flag; `miniPlanetPresent` whether the
   * temporary file still exists; `unlinkCalls` counts `deleteMiniPlanet`
   * calls and `unlinkErrors` those whose unlink found no file.
   */
  datatype CleanupState = CleanupState(queueEmpty: bool, miniPlanetPresent: bool, unlinkCalls: nat, unlinkErrors: nat)

  /** The state when tasks start: the mini planet exists unless it was skipped. */
  function Initial(skipMiniPlanet: bool): CleanupState {
    CleanupState(false, !skipMiniPlanet, 0, 0)
  }

  /** `deleteMiniPlanet`: unlink, which fails once the file is gone. */
  function DeleteMiniPlanet(s: CleanupState): (r: CleanupState)
    ensures r.unlinkCalls == s.unlinkCalls + 1
    ensures !r.miniPlanetPresent
    ensures r.unlinkErrors == s.unlinkErrors + (if s.miniPlanetPresent then 0 else 1)
  {
    if s.miniPlanetPresent then s.(miniPlanetPresent := false, unlinkCalls := s.unlinkCalls + 1)
    else s.(unlinkCalls := s.unlinkCalls + 1, unlinkErrors := s.unlinkErrors + 1)
  }

  function Step(skipMiniPlanet: bool, s: CleanupState, e: QueueEvent): (r: CleanupState)
    ensures s.queueEmpty ==> r.queueEmpty
    ensures e == Empty ==> r.queueEmpty
  {
    match e
    case Empty => s.(queueEmpty := true)
    case TaskFinish => if s.queueEmpty && !skipMiniPlanet then DeleteMiniPlanet(s) else s
  }

  /** Reference count: the task completions that arrive once `empty` has been seen. */
  function FinishesAfterEmpty(seenEmpty: bool, evs: seq<QueueEvent>): nat
    decreases |evs|
  {
    if |evs| == 0 then 0
    else
      var now := if seenEmpty && evs[0] == TaskFinish then 1 else 0;
      now + FinishesAfterEmpty(seenEmpty || evs[0] == Empty, evs[1..])
  }

  function Run(skipMiniPlanet: bool, s: CleanupState, evs: seq<QueueEvent>): (r: CleanupState)
    ensures r.queueEmpty <==> s.queueEmpty || Empty in evs
    ensures r.unlinkCalls == s.unlinkCalls + (if skipMiniPlanet then 0 else FinishesAfterEmpty(s.queueEmpty, evs))
    decreases |evs|
  {
    if |evs| == 0 then s
    else
      var r := Run(skipMiniPlanet, Step(skipMiniPlanet, s, evs[0]), evs[1..]);
      assert evs == [evs[0]] + evs[1..];
      r
  }

  /** Relation between unlink calls and failures: only the first unlink finds the file. */
  predicate Inv(skipMiniPlanet: bool, s: CleanupState) {
    if skipMiniPlanet then !s.miniPlanetPresent && s.unlinkCalls == 0 && s.unlinkErrors == 0
    else if s.miniPlanetPresent then s.unlinkCalls == 0 && s.unlinkErrors == 0
    else s.unlinkErrors + 1 == s.unlinkCalls
  }

  lemma {:induction false} RunKeepsInv(skipMiniPlanet: bool, s: CleanupState, evs: seq<QueueEvent>)
    requires Inv(skipMiniPlanet, s)
    ensures Inv(skipMiniPlanet, Run(skipMiniPlanet, s, evs))
    decreases |evs|
  {
    if |evs| > 0 {
      RunKeepsInv(skipMiniPlanet, Step(skipMiniPlanet, s, evs[0]), evs[1..]);
    }
  }

  /** Two completions after `empty` issue two unlinks, and the second one fails. */
  lemma DeleteFiresTwice()
    ensures Run(false, Initial(false), [Empty, TaskFinish, TaskFinish]).unlinkCalls == 2
    ensures Run(false, Initial(false), [Empty, TaskFinish, TaskFinish]).unlinkErrors == 1
  {
    var evs := [Empty, TaskFinish, TaskFinish];
    RunKeepsInv(false, Initial(false), evs);
    assert evs[1..] == [TaskFinish, TaskFinish];
    assert evs[1..][1..] == [TaskFinish];
    assert FinishesAfterEmpty(true, [TaskFinish]) == 1;
    assert FinishesAfterEmpty(true, [TaskFinish, TaskFinish]) == 2;
  }

  /** With the mini planet skipped nothing is ever deleted. */
  lemma SkippedNeverDeletes(evs: seq<QueueEvent>)
    ensures Run(true, Initial(true), evs).unlinkCalls == 0
  {
  }
}

=== FILE: engine.dfy ===
/**
 * The exported classifier of modify.js (lines 3-60): name normalisation
 * followed by the first-match chain place, water, building, road, railway,
 * nature, boundary, route, structure.
 */
module Engine {
  import opened Wrappers
  import opened Features
  import opened Names
  import opened Classifiers

  /** The order of the `||` chain of modify.js lines 51-59. */
  const ChainOrder: seq<Layer> := [Place, Water, Building, Road, Railway, Nature, Boundary, Route, Structure]

  /** The classifier whose output goes to layer `l`. */
  function RunRule(l: Layer, f: Feature): (r: Option<Directive>)
    ensures r.Some? ==> r.value.layer == l && ValidDirective(r.value)
  {
    match l
    case Place => ClassifyPlace(f)
    case Water => ClassifyWater(f)
    case Building => ClassifyBuilding(f)
    case Road => ClassifyRoad(f)
    case Railway => ClassifyRailway(f)
    case Nature => ClassifyNature(f)
    case Boundary => ClassifyBoundary(f)
    case Route => ClassifyRoute(f)
    case Structure => ClassifyStructure(f)
  }

  /** A classifier for each layer, as the chain sees them for one feature. */
  type Rules = Layer -> Option<Directive>

  /** The nine classifiers of modify.js applied to `f`. */
  function RulesOf(f: Feature): Rules {
    l => RunRule(l, f)
  }

  /** Reference definition of a priority chain: the output of the first rule of `order` that accepts. */
  function FirstAccepting(order: seq<Layer>, rule: Rules): (r: Option<Directive>)
    ensures r.None? <==> forall i :: 0 <= i < |order| ==> rule(order[i]).None?
    ensures r.Some? ==> exists i :: 0 <= i < |order| && rule(order[i]) == r
                                    && forall j :: 0 <= j < i ==> rule(order[j]).None?
  {
    if |order| == 0 then None
    else if rule(order[0]).Some? then rule(order[0])
    else
      var rest := FirstAccepting(order[1..], rule);
      assert forall i :: 1 <= i < |order| ==> order[i] == order[1..][i - 1];
      if rest.Some? then
        var i :| 0 <= i < |order[1..]| && rule(order[1..][i]) == rest
                 && forall j :: 0 <= j < i ==> rule(order[1..][j]).None?;
        assert rule(order[i + 1]) == rest;
        rest
      else rest
  }

  /** The source's short-circuit chain of the nine classifiers, with `rule(l)` standing for the classifier of layer `l`. */
  function Chain(rule: Rules): Option<Directive> {
    if rule(Place).Some? then rule(Place)
    else if rule(Water).Some? then rule(Water)
    else if rule(Building).Some? then rule(Building)
    else if rule(Road).Some? then rule(Road)
    else if rule(Railway).Some? then rule(Railway)
    else if rule(Nature).Some? then rule(Nature)
    else if rule(Boundary).Some? then rule(Boundary)
    else if rule(Route).Some? then rule(Route)
    else rule(Structure)
  }

  /** Every rule that accepts gives a valid directive. */
  predicate AllValid(rule: Rules) {
    forall l :: rule(l).Some? ==> ValidDirective(rule(l).value)
  }

  /** The chain returns one of its rules' outputs, so it keeps their validity. */
  lemma ChainKeepsValid(rule: Rules)
    requires AllValid(rule)
    ensures Chain(rule).Some? ==> ValidDirective(Chain(rule).value)
  {
  }

  /** One step of the reference chain over the suffix of `ChainOrder` starting at `k`. */
  lemma UnfoldChainOrder(k: nat, rule: Rules)
    requires k < |ChainOrder|
    ensures FirstAccepting(ChainOrder[k..], rule)
            == if rule(ChainOrder[k]).Some? then rule(ChainOrder[k]) else FirstAccepting(ChainOrder[k + 1..], rule)
  {
    assert ChainOrder[k..][0] == ChainOrder[k];
    assert ChainOrder[k..][1..] == ChainOrder[k + 1..];
  }

  /** The last four links of the chain: nature, boundary, route, structure. */
  lemma ChainTail(rule: Rules)
    ensures FirstAccepting(ChainOrder[5..], rule)
            == if rule(Nature).Some? then rule(Nature)
               else if rule(Boundary).Some? then rule(Boundary)
               else if rule(Route).Some? then rule(Route)
               else rule(Structure)
  {
    assert FirstAccepting(ChainOrder[9..], rule) == None;
    UnfoldChainOrder(8, rule);
    UnfoldChainOrder(7, rule);
    UnfoldChainOrder(6, rule);
    UnfoldChainOrder(5, rule);
  }

  /** The hand-written chain is the first-match chain over `ChainOrder`, whatever the rules. */
  lemma ChainIsFirstAccepting(rule: Rules)
    ensures Chain(rule) == FirstAccepting(ChainOrder, rule)
  {
    ChainTail(rule);
    UnfoldChainOrder(4, rule);
    UnfoldChainOrder(3, rule);
    UnfoldChainOrder(2, rule);
    UnfoldChainOrder(1, rule);
    UnfoldChainOrder(0, rule);
    assert ChainOrder[0..] == ChainOrder;
  }

  /** The feature every classifier sees: the input after the name step. */
  function Normalized(f: Feature): Feature {
    f.(properties := NormalizeNames(f.properties))
  }

  /**
   * The exported function: `None` is the source's `null` (the record is dropped),
   * otherwise the name-normalised feature with its `tippecanoe` annotation.
   */
  function Classify(f: Feature): (r: Option<Annotated>)
    ensures r.Some? ==> r.value.feature == Normalized(f)
    ensures r.Some? ==> ValidDirective(r.value.tippecanoe)
  {
    var g := Normalized(f);
    assert AllValid(RulesOf(g)) by {
      forall l | RulesOf(g)(l).Some? ensures ValidDirective(RulesOf(g)(l).value) {
        assert RulesOf(g)(l) == RunRule(l, g);
      }
    }
    ChainKeepsValid(RulesOf(g));
    match Chain(RulesOf(g))
    case Some(d) => Some(Annotated(g, d))
    case None => None
  }

  /** The name step leaves every key that is not a name variant untouched. */
  lemma NormalizedKeeps(f: Feature, k: string)
    requires !IsNameVariant(k)
    ensures k in Normalized(f).properties <==> k in f.properties
    ensures k in f.properties ==> Normalized(f).properties[k] == f.properties[k]
    ensures Normalized(f).geometry == f.geometry && Normalized(f).rawPolyZoom == f.rawPolyZoom
  {
  }

  /** Chain order wins: a point that is both a city and a building goes to the place layer. */
  lemma PlaceBeatsBuilding(f: Feature)
    requires f.geometry == Point
    requires Equals(f.properties, "place", "city") && Truthy(f.properties, "building")
    requires !Equals(f.properties, "capital", "yes")
    ensures Classify(f).Some? && Classify(f).value.tippecanoe == Directive(8, 15, Place)
  {
    NoColonNoVariant("place");
    NoColonNoVariant("capital");
    NormalizedKeeps(f, "place");
    NormalizedKeeps(f, "capital");
    var g := Normalized(f);
    assert "city" in Settlements;
    assert ClassifyPlace(g) == Some(Directive(8, 15, Place));
    assert RulesOf(g)(Place) == ClassifyPlace(g);
  }

  /** The settlement switch tests 'villege', so a non-capital village point keeps minzoom 14. */
  lemma VillageKeepsFourteen(f: Feature)
    requires f.geometry == Point
    requires Equals(f.properties, "place", "village") && !Equals(f.properties, "capital", "yes")
    ensures Classify(f).Some? && Classify(f).value.tippecanoe == Directive(14, 15, Place)
  {
    NoColonNoVariant("place");
    NoColonNoVariant("capital");
    NormalizedKeeps(f, "place");
    NormalizedKeeps(f, "capital");
    var g := Normalized(f);
    assert "village" in Settlements;
    assert ClassifyPlace(g) == Some(Directive(14, 15, Place));
    assert RulesOf(g)(Place) == ClassifyPlace(g);
  }

  /** Whatever the rules, the first-match chain returns the output of the first rule that accepts. */
  lemma FirstAcceptingPicksFirst(order: seq<Layer>, rule: Rules, k: nat)
    requires k < |order| && rule(order[k]).Some?
    requires forall j :: 0 <= j < k ==> rule(order[j]).None?
    ensures FirstAccepting(order, rule) == rule(order[k])
  {
    var r := FirstAccepting(order, rule);
    assert r.Some?;
    var i :| 0 <= i < |order| && rule(order[i]) == r && forall j :: 0 <= j < i ==> rule(order[j]).None?;
    assert i == k;
  }

  /** A feature is dropped exactly when all nine classifiers decline its normalised form. */
  lemma ClassifyDropsIff(f: Feature)
    ensures Classify(f).None? <==> forall i :: 0 <= i < |ChainOrder| ==> RunRule(ChainOrder[i], Normalized(f)).None?
  {
    var g := Normalized(f);
    ChainIsFirstAccepting(RulesOf(g));
  }

  /** If rule k of the chain accepts and every earlier one declines, the feature is annotated by rule k. */
  lemma ClassifyIsFirstRule(f: Feature, k: nat)
    requires k < |ChainOrder|
    requires RunRule(ChainOrder[k], Normalized(f)).Some?
    requires forall j :: 0 <= j < k ==> RunRule(ChainOrder[j], Normalized(f)).None?
    ensures Classify(f) == Some(Annotated(Normalized(f), RunRule(ChainOrder[k], Normalized(f)).value))
  {
    var g := Normalized(f);
    ChainIsFirstAccepting(RulesOf(g));
    FirstAcceptingPicksFirst(ChainOrder, RulesOf(g), k);
  }
}

=== FILE: features.dfy ===
/**
 * The data a classifier sees: a GeoJSON feature reduced to its geometry kind,
 * its property map, and the raw polygon zoom that stands for
 * floor(19 - log2(area) / 2), the only floating-point step of the engine.
 */
module Features {
  import opened Wrappers

  /** The GeoJSON geometry types a record may carry. */
  datatype Geometry =
    | Point
    | MultiPoint
    | LineString
    | MultiLineString
    | Polygon
    | MultiPolygon
    | GeometryCollection

  type Properties = map<string, string>

  /**
   * One exported record. `rawPolyZoom` is the unclamped value of
   * floor(19 - log2(area) / 2); it is only consulted for polygon geometries.
   */
  datatype Feature = Feature(geometry: Geometry, properties: Properties, rawPolyZoom: int)

  /** The nine output layers; the layer of an accepted feature is one of them by construction. */
  datatype Layer =
    | Place
    | Water
    | Building
    | Road
    | Railway
    | Nature
    | Boundary
    | Route
    | Structure

  /** The `tippecanoe` annotation of an accepted feature. */
  datatype Directive = Directive(minzoom: int, maxzoom: int, layer: Layer)

  /** An accepted feature: the (name-normalised) feature plus its annotation. */
  datatype Annotated = Annotated(feature: Feature, tippecanoe: Directive)

  /** What the tile builder is told to do with a feature: zooms within [6, 15], maxzoom 15. */
  predicate ValidDirective(d: Directive) {
    6 <= d.minzoom <= 15 && d.maxzoom == 15
  }

  predicate IsPolygonal(g: Geometry) {
    g == Polygon || g == MultiPolygon
  }

  predicate IsLinear(g: Geometry) {
    g == LineString || g == MultiLineString
  }

  /** `f.properties[k]`, with `None` for `undefined`. */
  function Get(p: Properties, k: string): (r: Option<string>)
    ensures r.Some? <==> k in p
  {
    if k in p then Some(p[k]) else None
  }

  /** JavaScript truthiness of a string property: present and not empty. */
  predicate Truthy(p: Properties, k: string) {
    k in p && p[k] != ""
  }

  /** `f.properties[k] === v`. */
  predicate Equals(p: Properties, k: string, v: string) {
    k in p && p[k] == v
  }

  /** `vs.includes(f.properties[k])`: an absent key never matches. */
  predicate OneOf(p: Properties, k: string, vs: seq<string>) {
    k in p && p[k] in vs
  }

  /** `lut[v]` for a lookup table of zoom levels; 0 stands for `undefined`, which is falsy. */
  function Lookup(lut: map<string, int>, v: string): int {
    if v in lut then lut[v] else 0
  }
}

=== FILE: grid.dfy ===
/** The tile grid enumerated by `main` (index.js lines 231-238). */
module Grid {

  /** A task key `[z, x, y]`. */
  datatype Tile = Tile(z: int, x: int, y: int)

  /** The configured rectangle of tiles at one zoom level. */
  datatype Rect = Rect(z: int, minx: int, maxx: int, miny: int, maxy: int)

  predicate InRect(r: Rect, t: Tile) {
    t.z == r.z && r.minx <= t.x <= r.maxx && r.miny <= t.y <= r.maxy
  }

  /** The number of integers in [lo, hi]. */
  function Span(lo: int, hi: int): nat {
    if lo <= hi then hi - lo + 1 else 0
  }

  /** x-major, y-minor order: the order of the two nested loops. */
  predicate Before(a: Tile, b: Tile) {
    a.x < b.x || (a.x == b.x && a.y < b.y)
  }

  /**
   * The two nested loops of `main`: x outer, y inner, each inclusive of its
   * upper bound. The pushed tasks are exactly the tiles of the rectangle,
   * each once, in x-major order.
   */
  method EnumerateGrid(r: Rect) returns (tasks: seq<Tile>)
    ensures forall t :: t in tasks <==> InRect(r, t)
    ensures forall i, j :: 0 <= i < j < |tasks| ==> Before(tasks[i], tasks[j])
    ensures |tasks| == Span(r.minx, r.maxx) * Span(r.miny, r.maxy)
  {
    var h := Span(r.miny, r.maxy);
    tasks := [];
    var x := r.minx;
    while x <= r.maxx
      invariant if r.minx <= r.maxx then r.minx <= x <= r.maxx + 1 else x == r.minx
      invariant forall t :: t in tasks <==> InRect(r, t) && t.x < x
      invariant forall i, j :: 0 <= i < j < |tasks| ==> Before(tasks[i], tasks[j])
      invariant forall i :: 0 <= i < |tasks| ==> tasks[i].x < x
      invariant |tasks| == (x - r.minx) * h
    {
      var y := r.miny;
      while y <= r.maxy
        invariant if r.miny <= r.maxy then r.miny <= y <= r.maxy + 1 else y == r.miny
        invariant forall t :: t in tasks <==> InRect(r, t) && (t.x < x || (t.x == x && t.y < y))
        invariant forall i, j :: 0 <= i < j < |tasks| ==> Before(tasks[i], tasks[j])
        invariant forall i :: 0 <= i < |tasks| ==> Before(tasks[i], Tile(r.z, x, y))
        invariant |tasks| == (x - r.minx) * h + (y - r.miny)
      {
        tasks := tasks + [Tile(r.z, x, y)];
        y := y + 1;
      }
      assert y - r.miny == h;
      assert (x - r.minx) * h + h == (x + 1 - r.minx) * h;
      x := x + 1;
    }
  }

  /** Strict x-major order means no tile is pushed twice. */
  lemma OrderedMeansDistinct(tasks: seq<Tile>)
    requires forall i, j :: 0 <= i < j < |tasks| ==> Before(tasks[i], tasks[j])
    ensures forall i, j :: 0 <= i < |tasks| && 0 <= j < |tasks| && i != j ==> tasks[i] != tasks[j]
  {
    forall i, j | 0 <= i < |tasks| && 0 <= j < |tasks| && i != j
      ensures tasks[i] != tasks[j]
    {
      if i < j {
        assert Before(tasks[i], tasks[j]);
      } else {
        assert Before(tasks[j], tasks[i]);
      }
    }
  }
}

=== FILE: names.dfy ===
/**
 * Name normalisation (modify.js lines 16-49): one display name is kept under
 * `name`, chosen by the preference name:en > name:fr > name:es > name:pt >
 * name:ar > int_name > name, and every other name variant is removed.
 */
module Names {
  import opened Wrappers
  import opened Features

  /** The keys whose mere presence triggers the name step. */
  const NameKeys: seq<string> := ["name:en", "name:fr", "name:es", "name:pt", "name:ar", "int_name", "name"]

  /** The keys consulted, in order, for a truthy display name before falling back to `name`. */
  const Preference: seq<string> := ["name:en", "name:fr", "name:es", "name:pt", "name:ar", "int_name"]

  /** `s` has `pat` as a contiguous substring (the regular expression `/name:/` is one). */
  function ContainsInfix(s: string, pat: string): bool
    decreases |s|
  {
    |pat| <= |s| && (s[..|pat|] == pat || ContainsInfix(s[1..], pat))
  }

  /** `pat` occurs in `s` at position `i`. */
  predicate InfixAt(s: string, pat: string, i: int) {
    0 <= i <= |s| - |pat| && s[i..i + |pat|] == pat
  }

  /** `ContainsInfix` agrees with the positional definition of a substring. */
  lemma {:induction false} ContainsInfixIff(s: string, pat: string)
    ensures ContainsInfix(s, pat) <==> exists i :: InfixAt(s, pat, i)
    decreases |s|
  {
    if |pat| <= |s| {
      if s[..|pat|] == pat {
        assert InfixAt(s, pat, 0);
      } else {
        ContainsInfixIff(s[1..], pat);
        if ContainsInfix(s[1..], pat) {
          var i :| InfixAt(s[1..], pat, i);
          assert s[i + 1..i + 1 + |pat|] == s[1..][i..i + |pat|];
          assert InfixAt(s, pat, i + 1);
        } else {
          forall i | InfixAt(s, pat, i)
            ensures false
          {
            if i != 0 {
              assert s[i..i + |pat|] == s[1..][i - 1..i - 1 + |pat|];
              assert InfixAt(s[1..], pat, i - 1);
            }
          }
        }
      }
    } else {
      forall i | InfixAt(s, pat, i)
        ensures false
      {
      }
    }
  }

  /** Every character of a pattern found in `s` occurs in `s`. */
  lemma {:induction false} InfixCharsOccur(s: string, pat: string, c: char)
    requires ContainsInfix(s, pat) && c in pat
    ensures c in s
    decreases |s|
  {
    if s[..|pat|] == pat {
      var j :| 0 <= j < |pat| && pat[j] == c;
      assert s[j] == c;
    } else {
      InfixCharsOccur(s[1..], pat, c);
    }
  }

  /** A key without a colon is never caught by `/name:/`. */
  lemma NoColonNoVariant(k: string)
    requires ':' !in k && k != "int_name" && k != "name"
    ensures !IsNameVariant(k)
  {
    if ContainsInfix(k, "name:") {
      InfixCharsOccur(k, "name:", ':');
    }
  }

  /** A key the `/name:/` loop deletes, or one of the two keys deleted by name. */
  predicate IsNameVariant(k: string) {
    k == "int_name" || k == "name" || ContainsInfix(k, "name:")
  }

  /** Some key of the seven is present (`hasOwnProperty`, so an empty value counts). */
  predicate HasNameKey(p: Properties) {
    exists i :: 0 <= i < |NameKeys| && NameKeys[i] in p
  }

  /** Reference definition: the value of the first key of `keys` that is truthy in `p`. */
  function FirstTruthy(p: Properties, keys: seq<string>): (r: Option<string>)
    ensures r.Some? <==> exists i :: 0 <= i < |keys| && Truthy(p, keys[i])
    ensures r.Some? ==> exists i :: 0 <= i < |keys| && Truthy(p, keys[i]) && r.value == p[keys[i]]
                                        && forall j :: 0 <= j < i ==> !Truthy(p, keys[j])
  {
    if |keys| == 0 then None
    else if Truthy(p, keys[0]) then Some(p[keys[0]])
    else
      var rest := FirstTruthy(p, keys[1..]);
      assert forall i :: 1 <= i < |keys| ==> keys[i] == keys[1..][i - 1];
      if rest.Some? then
        assert exists i :: 0 <= i < |keys[1..]| && Truthy(p, keys[1..][i]) && rest.value == p[keys[1..][i]]
                             && forall j :: 0 <= j < i ==> !Truthy(p, keys[1..][j]);
        rest
      else rest
  }

  /** The display name the preference order designates; `None` is JavaScript `undefined`. */
  function PreferredName(p: Properties): Option<string> {
    var first := FirstTruthy(p, Preference);
    if first.Some? then first else Get(p, "name")
  }

  /** The if/else chain of modify.js lines 25-40. */
  function ChosenName(p: Properties): Option<string> {
    if Truthy(p, "name:en") then Some(p["name:en"])
    else if Truthy(p, "name:fr") then Some(p["name:fr"])
    else if Truthy(p, "name:es") then Some(p["name:es"])
    else if Truthy(p, "name:pt") then Some(p["name:pt"])
    else if Truthy(p, "name:ar") then Some(p["name:ar"])
    else if Truthy(p, "int_name") then Some(p["int_name"])
    else Get(p, "name")
  }

  /** The hand-written chain picks exactly the name the preference order designates. */
  lemma ChosenNameIsPreferred(p: Properties)
    ensures ChosenName(p) == PreferredName(p)
  {
    var ks := Preference;
    assert FirstTruthy(p, ks[6..]) == None;
    assert FirstTruthy(p, ks[5..]) == if Truthy(p, "int_name") then Some(p["int_name"]) else None
      by { assert ks[5..][1..] == ks[6..]; }
    assert FirstTruthy(p, ks[4..]) == if Truthy(p, "name:ar") then Some(p["name:ar"]) else FirstTruthy(p, ks[5..])
      by { assert ks[4..][1..] == ks[5..]; }
    assert FirstTruthy(p, ks[3..]) == if Truthy(p, "name:pt") then Some(p["name:pt"]) else FirstTruthy(p, ks[4..])
      by { assert ks[3..][1..] == ks[4..]; }
    assert FirstTruthy(p, ks[2..]) == if Truthy(p, "name:es") then Some(p["name:es"]) else FirstTruthy(p, ks[3..])
      by { assert ks[2..][1..] == ks[3..]; }
    assert FirstTruthy(p, ks[1..]) == if Truthy(p, "name:fr") then Some(p["name:fr"]) else FirstTruthy(p, ks[2..])
      by { assert ks[1..][1..] == ks[2..]; }
    assert FirstTruthy(p, ks) == if Truthy(p, "name:en") then Some(p["name:en"]) else FirstTruthy(p, ks[1..]);
  }

  /** The name step runs exactly when one of the seven keys is present. */
  lemma HasNameKeyIff(p: Properties)
    ensures HasNameKey(p) <==> ("name:en" in p || "name:fr" in p || "name:es" in p || "name:pt" in p
                                || "name:ar" in p || "int_name" in p || "name" in p)
  {
    if "name:en" in p { assert NameKeys[0] in p; }
    if "name:fr" in p { assert NameKeys[1] in p; }
    if "name:es" in p { assert NameKeys[2] in p; }
    if "name:pt" in p { assert NameKeys[3] in p; }
    if "name:ar" in p { assert NameKeys[4] in p; }
    if "int_name" in p { assert NameKeys[5] in p; }
    if "name" in p { assert NameKeys[6] in p; }
  }

  /**
   * The name step. When the chosen name is `undefined` the key is left out:
   * the source assigns `undefined`, which no classifier can tell from an
   * absent key and which serialisation drops.
   */
  function NormalizeNames(p: Properties): (r: Properties)
    ensures !HasNameKey(p) ==> r == p
    ensures HasNameKey(p) ==> "int_name" !in r
    ensures HasNameKey(p) ==> forall k :: k in r ==> !ContainsInfix(k, "name:")
    ensures HasNameKey(p) ==> ("name" in r <==> PreferredName(p).Some?)
    ensures HasNameKey(p) && "name" in r ==> r["name"] == PreferredName(p).value
    ensures forall k :: !IsNameVariant(k) ==> (k in r <==> k in p)
    ensures forall k :: k in r && !IsNameVariant(k) ==> r[k] == p[k]
  {
    HasNameKeyIff(p);
    if "name:en" in p || "name:fr" in p || "name:es" in p || "name:pt" in p
       || "name:ar" in p || "int_name" in p || "name" in p
    then
      var name := ChosenName(p);
      ChosenNameIsPreferred(p);
      var kept := map k | k in p && k != "int_name" && k != "name" && !ContainsInfix(k, "name:") :: p[k];
      if name.Some? then kept["name" := name.value] else kept
    else p
  }

  /** The example of a French name overriding the local one. */
  lemma FrenchNameExample(p: Properties)
    requires p == map["name:fr" := "Paris", "name" := "Paris (fr)"]
    ensures NormalizeNames(p) == map["name" := "Paris"]
  {
    ChosenNameIsPreferred(p);
    HasNameKeyIff(p);
    assert ContainsInfix("name:fr", "name:");
    var kept := map k | k in p && k != "int_name" && k != "name" && !ContainsInfix(k, "name:") :: p[k];
    assert kept == map[];
  }
}

=== FILE: pipeline.dfy ===
/**
 * The per-tile stages and the queue worker of index.js. Subprocesses and the
 * filesystem are replaced by oracles: whether a destination file already
 * exists, whether the promise executor throws before the subprocess is
 * wired up, and the exit code the subprocess would report.
 */
module Pipeline {
  import opened Wrappers
  import opened Features
  import opened Grid
  import Relay

  /** The configuration values the core reads. */
  datatype Config = Config(
    rect: Rect,
    skipMiniPlanet: bool,
    skipExistingPbf: bool,
    skipExistingMbtiles: bool)

  /** How a stage's promise ends up; `Pending` is a promise that never settles. */
  datatype Settled = Resolved | Rejected | Pending

  /**
   * One stage call: whether its subprocess(es) were spawned, whether the
   * temporary output was renamed to its final path, and how the promise settled.
   */
  datatype StageRun = StageRun(spawned: bool, renamed: bool, settled: Settled)

  /**
   * The facts about the outside world one stage depends on: whether the
   * destination exists, whether the promise executor throws, whether the
   * subprocess ever closes (nothing in the source times it out), and its exit code.
   */
  datatype StageOracle = StageOracle(dstExists: bool, executorThrows: bool, exits: bool, exitCode: int)

  /** A stage that found its output already present: nothing spawned, promise resolved. */
  const Skipped: StageRun := StageRun(false, false, Resolved)

  /**
   * `extract` (index.js lines 37-76). The close handler renames and resolves
   * whatever the exit code; the promise can only reject through an exception
   * thrown by the executor itself (for instance by `fs.writeFileSync`). An
   * extractor that never closes leaves the promise pending.
   */
  function Extract(cfg: Config, o: StageOracle): (r: StageRun)
    ensures cfg.skipExistingPbf && o.dstExists ==> r == Skipped
    ensures r.settled == Rejected <==> !(cfg.skipExistingPbf && o.dstExists) && o.executorThrows
    ensures r.spawned <==> !(cfg.skipExistingPbf && o.dstExists) && !o.executorThrows
    ensures r.settled == Resolved <==> (cfg.skipExistingPbf && o.dstExists) || (!o.executorThrows && o.exits)
    ensures r.renamed <==> r.spawned && r.settled == Resolved
  {
    if cfg.skipExistingPbf && o.dstExists then Skipped
    else if o.executorThrows then StageRun(false, false, Rejected)
    else if o.exits then StageRun(true, true, Resolved)
    else StageRun(true, false, Pending)
  }

  /** `produce`: the stage outcome plus what the relay delivered to the builder. */
  datatype ProduceRun = ProduceRun(stage: StageRun, delivered: seq<Annotated>, stdinEnded: bool)

  /**
   * `produce` (index.js lines 78-159): skipped when the tile package exists
   * and skipping is configured, otherwise the relay is run over the export
   * events. The builder can close only once its stdin has been ended by the
   * parser's finish, and then closes when its oracle says it exits; only then
   * is its output renamed into place and the promise resolved, whatever the
   * exit code. Otherwise the promise stays pending.
   */
  function Produce(cfg: Config, o: StageOracle, events: seq<Relay.Event>): (r: ProduceRun)
    ensures cfg.skipExistingMbtiles && o.dstExists ==> r.stage == Skipped && r.delivered == []
    ensures r.stage.settled == Rejected <==> !(cfg.skipExistingMbtiles && o.dstExists) && o.executorThrows
    ensures r.stage.settled == Resolved <==>
              (cfg.skipExistingMbtiles && o.dstExists) || (!o.executorThrows && Relay.Finish in events && o.exits)
    ensures r.stage.spawned <==> !(cfg.skipExistingMbtiles && o.dstExists) && !o.executorThrows
    ensures r.stage.renamed <==> r.stage.spawned && r.stage.settled == Resolved
    ensures r.stage.spawned ==> r.delivered == Relay.Accepted(Relay.Modify, events)
    ensures r.stage.spawned ==> (r.stdinEnded <==> Relay.Finish in events)
    ensures forall a :: a in r.delivered ==> ValidDirective(a.tippecanoe)
  {
    if cfg.skipExistingMbtiles && o.dstExists then ProduceRun(Skipped, [], false)
    else if o.executorThrows then ProduceRun(StageRun(false, false, Rejected), [], false)
    else
      var relay := Relay.Run(Relay.Modify, Relay.Start, events);
      AcceptedAreValid(events);
      var closed := relay.stdinEnded && o.exits;
      ProduceRun(StageRun(true, closed, if closed then Resolved else Pending), relay.written, relay.stdinEnded)
  }

  /** Every record the relay delivers carries a valid directive. */
  lemma {:induction false} AcceptedAreValid(events: seq<Relay.Event>)
    ensures forall a :: a in Relay.Accepted(Relay.Modify, events) ==> ValidDirective(a.tippecanoe)
    decreases |events|
  {
    if |events| > 0 {
      AcceptedAreValid(events[1..]);
    }
  }

  /** The exception that escapes the async worker: both names are undeclared in index.js. */
  datatype Fault =
    | EndTimeUndefined  // `endTime` in the no-feature log call
    | ErrorUndefined    // `error` in the catch block

  datatype StageName = ExtractStage | ProduceStage

  /**
   * One run of the queue worker: the stages it called, in order, how many
   * subprocesses they spawned, whether `cb(null)` was reached, the
   * exception that escaped instead, and the records the builder received.
   * Neither a callback nor a fault means the worker is still awaiting a stage.
   */
  datatype WorkerRun = WorkerRun(
    invoked: seq<StageName>,
    spawned: nat,
    callbackCalled: bool,
    fault: Option<Fault>,
    delivered: seq<Annotated>)

  function SpawnCount(s: StageRun, n: nat): nat {
    if s.spawned then n else 0
  }

  /** The queue worker (index.js lines 161-182) for tile `t`; `noFeature` is the nfm list. */
  function Worker(cfg: Config, t: Tile, noFeature: set<Tile>, ext: StageOracle, prod: StageOracle,
                  events: seq<Relay.Event>): (r: WorkerRun)
    ensures t in noFeature ==> r.invoked == [] && r.spawned == 0
    ensures t in noFeature ==> !r.callbackCalled && r.fault == Some(EndTimeUndefined)
    ensures t !in noFeature ==> (ExtractStage in r.invoked <==> !cfg.skipMiniPlanet)
    ensures forall i, j :: 0 <= i < j < |r.invoked| ==> r.invoked[i] == ExtractStage && r.invoked[j] == ProduceStage
    ensures t !in noFeature ==> (ProduceStage in r.invoked <==> cfg.skipMiniPlanet || Extract(cfg, ext).settled == Resolved)
    ensures ProduceStage in r.invoked ==> r.delivered == Produce(cfg, prod, events).delivered
    ensures r.callbackCalled <==> ProduceStage in r.invoked && Produce(cfg, prod, events).stage.settled == Resolved
    ensures r.callbackCalled ==> r.fault.None?
    ensures (r.fault.None? && !r.callbackCalled) <==>
              (ExtractStage in r.invoked && Extract(cfg, ext).settled == Pending)
              || (ProduceStage in r.invoked && Produce(cfg, prod, events).stage.settled == Pending)
    ensures r.fault == Some(ErrorUndefined) <==>
              t !in noFeature && ((!cfg.skipMiniPlanet && Extract(cfg, ext).settled == Rejected)
                                  || (ProduceStage in r.invoked && Produce(cfg, prod, events).stage.settled == Rejected))
  {
    if t in noFeature then
      WorkerRun([], 0, false, Some(EndTimeUndefined), [])
    else if !cfg.skipMiniPlanet then
      var e := Extract(cfg, ext);
      if e.settled == Rejected then
        WorkerRun([ExtractStage], SpawnCount(e, 1), false, Some(ErrorUndefined), [])
      else if e.settled == Pending then
        WorkerRun([ExtractStage], SpawnCount(e, 1), false, None, [])
      else
        var p := Produce(cfg, prod, events);
        var n := SpawnCount(e, 1) + SpawnCount(p.stage, 2);
        if p.stage.settled == Rejected then
          WorkerRun([ExtractStage, ProduceStage], n, false, Some(ErrorUndefined), p.delivered)
        else
          WorkerRun([ExtractStage, ProduceStage], n, p.stage.settled == Resolved, None, p.delivered)
    else
      var p := Produce(cfg, prod, events);
      if p.stage.settled == Rejected then
        WorkerRun([ProduceStage], SpawnCount(p.stage, 2), false, Some(ErrorUndefined), p.delivered)
      else
        WorkerRun([ProduceStage], SpawnCount(p.stage, 2), p.stage.settled == Resolved, None, p.delivered)
  }

  /** A failed subprocess never fails the task: the exit codes do not change anything the worker does. */
  lemma ExitCodesIgnored(cfg: Config, t: Tile, noFeature: set<Tile>, ext: StageOracle, prod: StageOracle,
                         events: seq<Relay.Event>, c1: int, c2: int)
    ensures Worker(cfg, t, noFeature, ext.(exitCode := c1), prod.(exitCode := c2), events)
            == Worker(cfg, t, noFeature, ext, prod, events)
  {
  }

  /** A re-run over a grid whose outputs all exist spawns nothing when both skip flags are set. */
  lemma RerunSpawnsNothing(cfg: Config, t: Tile, noFeature: set<Tile>, ext: StageOracle, prod: StageOracle,
                           events: seq<Relay.Event>)
    requires cfg.skipExistingPbf && cfg.skipExistingMbtiles && ext.dstExists && prod.dstExists
    ensures Worker(cfg, t, noFeature, ext, prod, events).spawned == 0
    ensures t !in noFeature ==> Worker(cfg, t, noFeature, ext, prod, events).callbackCalled
  {
  }

  /** What `main` did: whether the mini planet was built, the tasks pushed, and the deletes it issued. */
  datatype MainRun = MainRun(miniPlanetSpawned: bool, pushed: seq<Tile>, deleteCalls: nat, rejected: bool)

  /**
   * `main` (index.js lines 231-238) with `createMiniPlanet` (lines 200-222):
   * a non-zero exit of the mini-planet extract deletes it, rejects, and
   * pushes no task; otherwise every tile of the rectangle is pushed.
   */
  method RunDriver(cfg: Config, miniPlanetExitCode: int) returns (r: MainRun)
    ensures r.miniPlanetSpawned <==> !cfg.skipMiniPlanet
    ensures r.rejected <==> !cfg.skipMiniPlanet && miniPlanetExitCode != 0
    ensures r.rejected ==> r.pushed == [] && r.deleteCalls == 1
    ensures !r.rejected ==> r.deleteCalls == 0
    ensures !r.rejected ==> forall t :: t in r.pushed <==> InRect(cfg.rect, t)
    ensures !r.rejected ==> |r.pushed| == Span(cfg.rect.minx, cfg.rect.maxx) * Span(cfg.rect.miny, cfg.rect.maxy)
    ensures forall i, j :: 0 <= i < j < |r.pushed| ==> Before(r.pushed[i], r.pushed[j])
  {
    if !cfg.skipMiniPlanet && miniPlanetExitCode != 0 {
      return MainRun(true, [], 1, true);
    }
    var tasks := EnumerateGrid(cfg.rect);
    r := MainRun(!cfg.skipMiniPlanet, tasks, 0, false);
  }
}

=== FILE: relay.dfy ===
/**
 * The flow-controlled relay inside `produce` (index.js lines 107-133): every
 * parsed record goes through the classifier, accepted ones are written to the
 * tile builder's stdin, and a full buffer makes the relay pause the
 * exporter's stdout and resume it when the builder's stdin drains. The
 * handlers are modelled as transitions of one state; the return value of
 * `stdin.write` is part of the data event. Only the relay's own `pause` and
 * `resume` calls are modelled: the pipe from the exporter into the parser
 * also pauses and resumes the exporter, and that flow control is not modelled.
 */
module Relay {
  import opened Wrappers
  import opened Features
  import Engine

  /** One JSON text of the export stream: a feature, or a value on which `modify` throws. */
  datatype Json = FeatureJson(feature: Feature) | Unusable

  /** The classifier as the relay calls it: an exception thrown by `modify` makes the record a reject. */
  function Modify(j: Json): (r: Option<Annotated>)
    ensures j.Unusable? ==> r.None?
    ensures r.Some? ==> ValidDirective(r.value.tippecanoe)
  {
    match j
    case FeatureJson(f) => Engine.Classify(f)
    case Unusable => None
  }

  /** The per-record classifier the relay calls; the pipeline passes `Modify`. */
  type Modifier = Json -> Option<Annotated>

  /** The events the relay reacts to; `writeAccepted` is what `stdin.write` returns for this record. */
  datatype Event =
    | Data(json: Json, writeAccepted: bool)
    | Drain
    | Finish

  /**
   * `pausing` is the source's flag; `drainListeners` counts the `once('drain')`
   * subscriptions not yet fired; `upstreamPaused` is whether the relay's last
   * call on the exporter's stdout was `pause`; `written` is what reached the
   * builder's stdin, in order.
   */
  datatype RelayState = RelayState(
    pausing: bool,
    drainListeners: nat,
    upstreamPaused: bool,
    pauseCalls: nat,
    resumeCalls: nat,
    written: seq<Annotated>,
    stdinEnded: bool)

  const Start: RelayState := RelayState(false, 0, false, 0, 0, [], false)

  /** A drain listener is outstanding exactly while `pausing` is set, so never more than one. */
  predicate Inv(s: RelayState) {
    s.drainListeners == if s.pausing then 1 else 0
  }

  function Step(classify: Modifier, s: RelayState, e: Event): (r: RelayState)
    ensures Inv(s) ==> Inv(r)
    ensures Inv(s) ==> r.drainListeners <= 1
    ensures r.pauseCalls == s.pauseCalls + (if e.Data? && classify(e.json).Some? && !e.writeAccepted then 1 else 0)
    ensures r.resumeCalls == s.resumeCalls + (if e.Drain? && s.drainListeners > 0 then 1 else 0)
    ensures e.Data? && classify(e.json).None? ==> r == s
  {
    match e
    case Data(j, ok) =>
      (var f := classify(j);
       if f.None? then s
       else
         var s := s.(written := s.written + [f.value]);
         if ok then s
         else
           var s := s.(upstreamPaused := true, pauseCalls := s.pauseCalls + 1);
           if !s.pausing then s.(drainListeners := s.drainListeners + 1, pausing := true) else s)
    case Drain =>
      if s.drainListeners > 0 then
        s.(upstreamPaused := false, resumeCalls := s.resumeCalls + 1, pausing := false,
           drainListeners := s.drainListeners - 1)
      else s
    case Finish =>
      s.(stdinEnded := true)
  }

  /** What one event contributes to the builder's input. */
  function Forwarded(classify: Modifier, e: Event): seq<Annotated> {
    if e.Data? && classify(e.json).Some? then [classify(e.json).value] else []
  }

  /** Reference definition: the accepted records of the data events, in arrival order. */
  function Accepted(classify: Modifier, evs: seq<Event>): seq<Annotated> {
    if |evs| == 0 then [] else Forwarded(classify, evs[0]) + Accepted(classify, evs[1..])
  }

  /** A step appends what the event forwards and ends stdin exactly on finish. */
  lemma StepOutput(classify: Modifier, s: RelayState, e: Event)
    ensures Step(classify, s, e).written == s.written + Forwarded(classify, e)
    ensures Step(classify, s, e).stdinEnded <==> s.stdinEnded || e == Finish
  {
  }

  /** The relay after a whole sequence of events. */
  function Run(classify: Modifier, s: RelayState, evs: seq<Event>): (r: RelayState)
    ensures r.written == s.written + Accepted(classify, evs)
    ensures r.stdinEnded <==> s.stdinEnded || Finish in evs
    ensures Inv(s) ==> Inv(r)
    decreases |evs|
  {
    if |evs| == 0 then s
    else
      var s' := Step(classify, s, evs[0]);
      var r := Run(classify, s', evs[1..]);
      StepOutput(classify, s, evs[0]);
      assert r.written == s.written + (Forwarded(classify, evs[0]) + Accepted(classify, evs[1..]));
      assert Finish in evs <==> evs[0] == Finish || Finish in evs[1..];
      r
  }

  /** Accepted records reach the builder in order, and a record the classifier rejects or cannot handle never does. */
  lemma {:induction false} AcceptedIsFilter(classify: Modifier, evs: seq<Event>, a: Annotated)
    ensures a in Accepted(classify, evs) <==> exists i :: 0 <= i < |evs| && evs[i].Data? && classify(evs[i].json) == Some(a)
    decreases |evs|
  {
    if |evs| > 0 {
      AcceptedIsFilter(classify, evs[1..], a);
      if a in Accepted(classify, evs[1..]) {
        var i :| 0 <= i < |evs[1..]| && evs[1..][i].Data? && classify(evs[1..][i].json) == Some(a);
        assert evs[i + 1] == evs[1..][i];
      }
      if exists i :: 0 <= i < |evs| && evs[i].Data? && classify(evs[i].json) == Some(a) {
        var i :| 0 <= i < |evs| && evs[i].Data? && classify(evs[i].json) == Some(a);
        if i > 0 {
          assert evs[1..][i - 1] == evs[i];
        }
      }
    }
  }

  /** A full buffer while already pausing pauses upstream again but registers no second listener. */
  lemma FullWriteWhilePausing(classify: Modifier, s: RelayState, j: Json)
    requires Inv(s) && s.pausing && classify(j).Some?
    ensures Step(classify, s, Data(j, false)).drainListeners == 1
    ensures Step(classify, s, Data(j, false)).pauseCalls == s.pauseCalls + 1
    ensures Step(classify, s, Data(j, false)).upstreamPaused
  {
  }

  /** Drain resumes upstream and clears `pausing`, so the next full buffer registers exactly one listener. */
  lemma DrainThenFullWrite(classify: Modifier, s: RelayState, j: Json)
    requires Inv(s) && s.pausing && classify(j).Some?
    ensures Step(classify, s, Drain).drainListeners == 0 && !Step(classify, s, Drain).pausing && !Step(classify, s, Drain).upstreamPaused
    ensures Step(classify, s, Drain).resumeCalls == s.resumeCalls + 1
    ensures Step(classify, Step(classify, s, Drain), Data(j, false)).drainListeners == 1
  {
  }

  /** Two full-buffer writes with no drain between them, then one drain: one listener, one resume. */
  lemma TwoFullWritesOneDrain(classify: Modifier, j1: Json, j2: Json)
    requires classify(j1).Some? && classify(j2).Some?
    ensures Run(classify, Start, [Data(j1, false), Data(j2, false)]).drainListeners == 1
    ensures Run(classify, Start, [Data(j1, false), Data(j2, false)]).pauseCalls == 2
    ensures Run(classify, Start, [Data(j1, false), Data(j2, false), Drain]).drainListeners == 0
    ensures Run(classify, Start, [Data(j1, false), Data(j2, false), Drain]).resumeCalls == 1
    ensures !Run(classify, Start, [Data(j1, false), Data(j2, false), Drain]).upstreamPaused
  {
    var s1 := Step(classify, Start, Data(j1, false));
    var s2 := Step(classify, s1, Data(j2, false));
    var s3 := Step(classify, s2, Drain);
    assert Run(classify, Start, [Data(j1, false), Data(j2, false)]) == s2 by {
      assert [Data(j1, false), Data(j2, false)][1..] == [Data(j2, false)];
      assert Run(classify, s2, []) == s2;
    }
    assert Run(classify, Start, [Data(j1, false), Data(j2, false), Drain]) == s3 by {
      assert [Data(j1, false), Data(j2, false), Drain][1..] == [Data(j2, false), Drain];
      assert [Data(j2, false), Drain][1..] == [Drain];
      assert Run(classify, s3, []) == s3;
      assert Run(classify, s2, [Drain]) == s3;
      assert Run(classify, s1, [Data(j2, false), Drain]) == s3;
    }
  }

  /** The relay has left upstream paused only while a drain listener is waiting to resume it. */
  predicate PausedOnlyWhilePausing(s: RelayState) {
    s.upstreamPaused ==> s.pausing
  }

  lemma PausedOnlyWhilePausingPreserved(classify: Modifier, s: RelayState, e: Event)
    requires Inv(s) && PausedOnlyWhilePausing(s)
    ensures PausedOnlyWhilePausing(Step(classify, s, e))
  {
  }
}

=== FILE: wrappers.dfy ===
/** The optional value used wherever the source has `null` or `undefined`. */
module Wrappers {

  datatype Option<+T> = None | Some(value: T)
}

=== FILE: zoom.dfy ===
/** The polygon-area zoom rule shared by most classifiers (modify.js `flap`). */
module Zoom {
  import opened Features

  const MinZoom := 6
  const MaxZoom := 15

  /** The zoom a polygon earns from its area: the raw value, kept within [MinZoom, MaxZoom]. */
  function AreaZoom(rawPolyZoom: int): (z: int)
    ensures MinZoom <= z <= MaxZoom
    ensures MinZoom <= rawPolyZoom <= MaxZoom ==> z == rawPolyZoom
    ensures rawPolyZoom > MaxZoom ==> z == MaxZoom
    ensures rawPolyZoom < MinZoom ==> z == MinZoom
  {
    if rawPolyZoom < MinZoom then MinZoom
    else if rawPolyZoom > MaxZoom then MaxZoom
    else rawPolyZoom
  }

  /**
   * Polygons get their raw area zoom clamped to [6, 15]; every other geometry
   * gets the caller's default when it is truthy (non-zero), and 10 otherwise.
   */
  function Flap(g: Geometry, rawPolyZoom: int, default: int): (r: int)
    ensures IsPolygonal(g) ==> r == AreaZoom(rawPolyZoom)
    ensures !IsPolygonal(g) && default != 0 ==> r == default
    ensures !IsPolygonal(g) && default == 0 ==> r == 10
  {
    if g in [MultiPolygon, Polygon] then AreaZoom(rawPolyZoom)
    else if default != 0 then default else 10
  }

  /** Flap of a whole feature. */
  function FlapOf(f: Feature, default: int): (r: int)
    ensures 6 <= default <= 15 ==> 6 <= r <= 15
    ensures IsPolygonal(f.geometry) ==> r == AreaZoom(f.rawPolyZoom)
    ensures !IsPolygonal(f.geometry) && default != 0 ==> r == default
  {
    Flap(f.geometry, f.rawPolyZoom, default)
  }
}
